=== FILE: README.md ===
# SROM optimizer search, in Dafny

A model of the control logic of SROMPy's `Optimizer` class
(`SROMPy/optimize/Optimizer.py`), which calibrates a stochastic reduced-order
model (SROM): it repeatedly draws a candidate sample set from the target
random vector, asks a constrained solver for the probabilities that minimize
the SROM error on it, and keeps the best (samples, probabilities) pair. With
several MPI workers, each worker searches on its own and rank 0 picks one
result among the gathered ones and broadcasts it.

The solver, the sampler and the objective function are not modelled. Each
rank's sequence of per-iteration results (drawn samples, solver `x`, solver
`fun`) is an oracle `nat -> IterationResult`; the objective function's
moment, CDF and correlation errors are an oracle `Evaluator`. Objective
values and errors are exact `real`s.

| file | module | what it holds |
|---|---|---|
| `outcomes.dfy` | `Outcomes` | `Option` for Python's `None`, `Result` and `PyError` for raised exceptions |
| `best_so_far.dfy` | `BestSoFar` | the strict-`<` best-so-far fold from the 1e6 sentinel, and its earliest-minimum characterisation |
| `problem_setup.dfy` | `ProblemSetup` | bounds, equality constraint, initial guess, and the order the solver call builds them in |
| `workload.dfy` | `Workload` | per-worker iteration count and the parallelisation notices |
| `search_loop.dfy` | `SearchLoop` | the per-worker search loop with its progress reports |
| `reconcile.dfy` | `Reconcile` | `get_errors` and rank 0's selection, as written and as intended |
| `optimizer.dfy` | `Optimizer` | argument validation, `__perform_optimization`, `get_optimal_params` |

## Model

| member | source | states |
|---|---|---|
| `BestSoFar.Offer` | SROMPy/optimize/Optimizer.py:258-261 | a result replaces the best only when its value is strictly lower, and then the best becomes that value and the choice that result; on a tie or a larger value the tracker is unchanged |
| `BestSoFar.Scan` | SROMPy/optimize/Optimizer.py:238-261 | after the fold, the best value is at most the starting value and at most every offered value |
| `BestSoFar.ScanSelectsEarliestMin` | SROMPy/optimize/Optimizer.py:229-261 | from the sentinel, the fold ends with the minimum of the sentinel and all values; it keeps an item exactly when some value beats the sentinel, and that item is the earliest one attaining the minimum (and any earliest minimum is the one kept) |
| `BestSoFar.ScanBestMonotone` | SROMPy/optimize/Optimizer.py:258-261 | the best value never increases as more iterations are folded in |
| `ProblemSetup.ParamBounds` | SROMPy/optimize/Optimizer.py:387-399 | sequential mode gives exactly `srom_size` bounds, each (0.0, 1.0); joint mode raises NotImplementedError ("SROM joint optimization not implemented") |
| `ProblemSetup.GetConstraints` | SROMPy/optimize/Optimizer.py:401-422 | the constraint function (`Residual`, the `seq_constraint`/`joint_constraint` of lines 411-416) is zero for the sequential constraint exactly when the design vector sums to 1; the joint constraint is zero exactly when the probabilities after the `srom_size*dim` sample coordinates sum to 1 |
| `ProblemSetup.UniformGuess` | SROMPy/optimize/Optimizer.py:440-442 | the sequential guess has `srom_size` equal entries summing to 1; an empty SROM raises ZeroDivisionError |
| `ProblemSetup.SetupProblem` | SROMPy/optimize/Optimizer.py:248-255 | the solver call fails exactly for an empty SROM (ZeroDivisionError, raised first) or joint mode (NotImplementedError); otherwise the bounds handed to the solver are `get_param_bounds`' (0.0, 1.0) list and the constraint is `get_constraints`' one, and the initial guess is `get_initial_guess`' uniform `1/srom_size` vector, which lies within those bounds and satisfies that constraint exactly |
| `Workload.PerWorker` | SROMPy/optimize/Optimizer.py:235 | each worker's count `n` is the floor quotient: `n*cpus <= total < (n+1)*cpus` |
| `Workload.PerWorkerPartition` | SROMPy/optimize/Optimizer.py:235-238 | the workers together run `total` minus `total % cpus`, which is less than `cpus`; a worker runs nothing exactly when workers outnumber samples |
| `Workload.PerWorkerAntitone` | SROMPy/optimize/Optimizer.py:235 | one more worker never raises a worker's share |
| `Workload.ParallelizationNotices` | SROMPy/optimize/Optimizer.py:319-338 | the sequential banner appears exactly with one CPU, the parallel banner (always with the true CPU count) exactly on rank 0 of several; at most one banner, first, and at most one warning, last, reporting `total // cpus` per core and `total`; ranks other than 0 print nothing |
| `Workload.WarningIffSamplesDropped` | SROMPy/optimize/Optimizer.py:333-338 | the uneven-split warning is printed exactly on rank 0 when the workers together run fewer iterations than requested |
| `SearchLoop.ProgressDue` | SROMPy/optimize/Optimizer.py:264-265 | iteration `i` reports exactly when verbose, on one CPU, and `i == 0` or `(i+1)` is a multiple of the interval; for a verbose single worker, a zero interval raises ZeroDivisionError from the second iteration on; a run that is not verbose or has several CPUs never evaluates the modulo |
| `SearchLoop.ProgressCount` | SROMPy/optimize/Optimizer.py:264-270 | with a positive interval `m`, a verbose single worker prints `n / m` reports in `n` iterations plus one for the first iteration when `m > 1`; otherwise it prints none |
| `SearchLoop.LoopOutcome` | SROMPy/optimize/Optimizer.py:229-272 | the loop raises exactly when it runs at least once and the SROM is empty, joint mode is on, or a verbose single worker has a zero output interval and reaches a second iteration; a worker given no iteration keeps nothing (what a completed loop keeps is stated by `SearchLoop.LoopKeepsEarliestBest`) |
| `SearchLoop.Iterate` | SROMPy/optimize/Optimizer.py:237-270 | once the problem is set up, the iterations fold the results with a strict-decrease update, stopping with ZeroDivisionError exactly when a verbose single worker with a zero output interval reaches its second iteration; the reports made are exactly the due iterations in order; when it raises, the reports already made are exactly those due in the first iteration |
| `SearchLoop.RunOptimizationLoop` | SROMPy/optimize/Optimizer.py:207-272 | the loop's outcome equals `LoopOutcome`: the best-so-far fold of the worker's first `total // cpus` results, or the exception it raises; its reports are exactly the due iterations, in order, each with that iteration's value and the best value after it |
| `SearchLoop.LoopKeepsEarliestBest` | SROMPy/optimize/Optimizer.py:229-272 | a completed loop keeps the earliest iteration attaining the minimum of 1e6 and all objective values, and keeps `None` when no value beats 1e6, including when no iteration runs |
| `Reconcile.GetErrors` | SROMPy/optimize/Optimizer.py:360-385 | the three error terms are returned unchanged and the mean lies between their minimum and maximum; that it is their arithmetic mean is stated by `Reconcile.MeanIsLinear` |
| `Reconcile.MeanErrorProperties` | SROMPy/optimize/Optimizer.py:380-382 | the mean is unchanged by reordering the terms, equals their common value when they agree, and for non-negative terms is zero exactly when all three are |
| `Reconcile.MeanIsLinear` | SROMPy/optimize/Optimizer.py:380-382 | the mean of summed terms is the sum of the means, and scaling the terms scales the mean: with the symmetry and common-value clauses, it is the arithmetic mean of the three terms |
| `Reconcile.HeldLoop` | SROMPy/optimize/Optimizer.py:300-311 | the loop as written, scoring the pair currently held rather than the entry, ends with the pair it started with or one of the gathered entries |
| `Reconcile.HeldLoopStays` | SROMPy/optimize/Optimizer.py:304-311 | once the held pair's mean error is not below the best so far, the loop keeps that pair to the end |
| `Reconcile.SelectAsWritten` | SROMPy/optimize/Optimizer.py:298-311 | as written, rank 0 keeps its own pair when that pair's mean error is 1e6 or more, and also whenever the first gathered entry is that same pair (as it always is, being rank 0's package); the result is always its own pair or a gathered entry |
| `Reconcile.HeldPairDecides` | SROMPy/optimize/Optimizer.py:304-311 | for a list whose first entry is not the pair held, the loop does move: when the held pair's mean error is below 1e6, a first entry scoring below the held pair is taken and then replaced by the second entry, whatever that entry's error |
| `Reconcile.SelectBest` | SROMPy/optimize/Optimizer.py:298-311 | scoring each entry by its own mean error, the pick is the earliest entry holding a result with the least mean error below 1e6; entries without a result are never picked; the local pair is kept when none qualifies |
| `Reconcile.AsWrittenMissesBetterWorker` | SROMPy/optimize/Optimizer.py:302-311 | when worker 0's mean error is below 1e6 and worker 1's is strictly smaller, the as-written pick is worker 0's and the intended pick is worker 1's |
| `Optimizer.ValidateSampleCount` | SROMPy/optimize/Optimizer.py:137-141 | a non-int count raises TypeError, an int count `<= 0` raises ValueError (a `bool` counts as 0 or 1), any other count is accepted unchanged |
| `Optimizer.SampleCountRejectedFirst` | SROMPy/optimize/Optimizer.py:137-154 | an invalid count yields its validation error whatever the streams and evaluator: nothing is searched first |
| `Optimizer.FailureIsRankIndependent` | SROMPy/optimize/Optimizer.py:234-255 | whether a worker's loop raises, and what, does not depend on its rank or random stream |
| `Optimizer.FailureConditions` | SROMPy/optimize/Optimizer.py:207-272 | a valid request raises exactly when some iteration runs and the SROM is empty, joint mode is asked for, or a verbose single worker has a zero output interval and at least two iterations; which exception follows the order of evaluation |
| `Optimizer.SequentialRunKeepsEarliestBest` | SROMPy/optimize/Optimizer.py:147-205 | one worker returns the pair of the earliest of its `num_test_samples` iterations with the least objective value below 1e6, or `None` when no value is below 1e6 |
| `Optimizer.ParallelResultIsCoordinatorResult` | SROMPy/optimize/Optimizer.py:197-205 | with several workers, every rank returns the same result, and as written it is rank 0's own local result |
| `Optimizer.PerformOptimizationIntended` | SROMPy/optimize/Optimizer.py:274-317 | with each gathered result scored by its own errors, every rank returns the earliest worker result with the least mean error below 1e6, or rank 0's result when none is below 1e6 |

## Left out

- The solver (`scipy.optimize.minimize`), the objective function and its gradient: foreign code, replaced by the per-rank result streams and the `Evaluator`. The solver's method name and the SSE-only gradient switch therefore do not appear.
- Drawing samples and seeding the generator with the rank (`np.random.seed`): each rank's stream stands for the draws its seed produces.
- The joint-mode initial guess (random draw stacked with uniform probabilities): it depends on the random draw, and joint mode always fails at the bounds after it. Only its division by `srom_size` is modelled.
- MPI detection, gather and broadcast as messaging: modelled only by their effect (rank 0 sees every package in rank order; all ranks return rank 0's choice). Line 315 calls `comm.broadcast`, while the broadcast mpi4py documents on a communicator is `bcast`; the model assumes that line delivers rank 0's choice to every rank rather than raising AttributeError. A worker that raises while others wait at the gather is not modelled; the loop raises on all ranks or on none.
- Printing, timing and the final error report printed by `get_optimal_params`: output only. The progress reports and the parallelisation notices are modelled as data; that the notices are printed only when `verbose` is set is not part of the model.
- Constructor validation of target, SROM, weights, error mode, `max_moment` and `cdf_grid_pts`: it happens in the objective-function and gradient classes, which are not part of this model.
- The behaviour of the objective function on a `(None, None)` pair: `get_errors` reaches one when no iteration ran, when iterations ran but none beat 1e6 (Optimizer.py:157-158), and in the reconciliation when rank 0 holds no result (Optimizer.py:306). The `Evaluator` answers whatever it answers.
- Floating point: objective values, probabilities and the mean error are exact reals, so the uniform guess sums to exactly 1.
- `num_test_samples` values of types other than `int` and `bool` are one `OtherArg` case; `output_interval` is taken to be an `int`.
- `Optimizer.PerformOptimization` and `Optimizer.GetOptimalParams` carry no contract of their own; their behaviour is stated by the `Optimizer` lemmas above.

## Findings

| source | as written | input that shows it | evidently intended | confidence | as-written member | corrected member |
|---|---|---|---|---|---|---|
| SROMPy/optimize/Optimizer.py:304-306 | every gathered entry is scored with `get_errors(optimal_samples, optimal_probabilities)`, the pair currently held, not the entry; the first entry is rank 0's own package, so taking it leaves the held pair unchanged and no later entry can score below it: rank 0's own result is always returned (when its mean error is 1e6 or more it is kept without being taken) | two workers, rank 0's mean error 3.0, rank 1's mean error 0.0: rank 0's result is returned | score each entry with `get_errors(result['samples'], result['probabilities'])` and keep the least | high; not executed | `Reconcile.SelectAsWritten` (shown by `Reconcile.AsWrittenMissesBetterWorker` and `Optimizer.ParallelResultIsCoordinatorResult`) | `Reconcile.SelectBest` (used by `Optimizer.PerformOptimizationIntended`) |

`Optimizer.PerformOptimization` follows the code as written; `Optimizer.PerformOptimizationIntended` is the same step with the corrected selection.

Two further observations that are not defects of reachable behaviour:

- The joint-mode constraint dictionary passes `args: (srom_size, dim)` to a constraint function that takes only `x`. Joint mode raises at the bounds before the solver would call it, so the model gives the joint constraint the one-argument meaning.
- An `output_interval` of 0 raises ZeroDivisionError on the second iteration of a verbose single-worker run; the first iteration is protected by the `i == 0` test. The model reproduces this.

=== FILE: best_so_far.dfy ===
/** The "keep the best seen so far" fold that the optimizer uses twice: once
    over the solver results of its search loop, once over the results gathered
    from every worker. Both start from a large sentinel and replace the
    incumbent only on a STRICT decrease of the score. */
module BestSoFar {
  import opened Outcomes

  /** The starting value of both searches: nothing scoring 1e6 or more is ever kept. */
  const Sentinel: real := 1000000.0

  /** The accumulator: the best score so far and the item that attained it
      (`None` until some item beats the starting bound). */
  datatype Tracker<T> = Tracker(best: real, choice: Option<T>)

  function Start<T>(bound: real): Tracker<T>
  {
    Tracker(bound, None)
  }

  /** One step of the fold: `x` with score `score` is offered to the tracker. */
  function Offer<T>(t: Tracker<T>, score: real, x: T): (r: Tracker<T>)
    ensures r.best <= t.best && r.best <= score
    ensures t.best <= score ==> r == t
    ensures score < t.best ==> r.best == score && r.choice == Some(x)
  {
    if score < t.best then Tracker(score, Some(x)) else t
  }

  /** Offers the items of `xs` to `t`, first to last. */
  function Scan<T>(t: Tracker<T>, xs: seq<T>, score: T -> real): (r: Tracker<T>)
    ensures r.best <= t.best
    ensures forall i :: 0 <= i < |xs| ==> r.best <= score(xs[i])
    decreases |xs|
  {
    if |xs| == 0 then t
    else
      var last := |xs| - 1;
      Offer(Scan(t, xs[..last], score), score(xs[last]), xs[last])
  }

  /** `xs[k]` beats `bound`, no item scores lower, and every earlier item scores
      strictly higher: it is the first item attaining the minimum. */
  ghost predicate EarliestMin<T>(xs: seq<T>, score: T -> real, bound: real, k: int)
  {
    && 0 <= k < |xs|
    && score(xs[k]) < bound
    && (forall i :: 0 <= i < |xs| ==> score(xs[k]) <= score(xs[i]))
    && (forall i :: 0 <= i < k ==> score(xs[k]) < score(xs[i]))
  }

  lemma EarliestMinUnique<T>(xs: seq<T>, score: T -> real, bound: real, k1: int, k2: int)
    requires EarliestMin(xs, score, bound, k1) && EarliestMin(xs, score, bound, k2)
    ensures k1 == k2
  {
  }

  /** The fold from an empty tracker ends with the minimum of the bound and all
      scores; it holds an item exactly when some score beats the bound, and that
      item is the earliest one attaining the minimum. */
  lemma {:induction false} ScanSelectsEarliestMin<T>(bound: real, xs: seq<T>, score: T -> real)
    ensures var r := Scan(Start(bound), xs, score);
      && r.best <= bound
      && (forall i :: 0 <= i < |xs| ==> r.best <= score(xs[i]))
      && (r.choice.None? <==> forall i :: 0 <= i < |xs| ==> bound <= score(xs[i]))
      && (r.choice.None? ==> r.best == bound)
      && (r.choice.Some? ==>
            exists k :: EarliestMin(xs, score, bound, k) && r.choice.value == xs[k] && r.best == score(xs[k]))
      && (forall k :: EarliestMin(xs, score, bound, k) ==> r.choice == Some(xs[k]))
  {
    var r := Scan(Start(bound), xs, score);
    if |xs| > 0 {
      var last := |xs| - 1;
      var pre := xs[..last];
      ScanSelectsEarliestMin(bound, pre, score);
      var p := Scan(Start(bound), pre, score);
      assert forall i :: 0 <= i < last ==> pre[i] == xs[i];
      if score(xs[last]) < p.best {
        assert r == Tracker(score(xs[last]), Some(xs[last]));
        assert EarliestMin(xs, score, bound, last);
      } else {
        assert r == p;
        if p.choice.Some? {
          var k :| EarliestMin(pre, score, bound, k) && p.choice.value == pre[k] && p.best == score(pre[k]);
          assert EarliestMin(xs, score, bound, k);
        } else {
          assert forall i :: 0 <= i < |xs| ==> bound <= score(xs[i]) by {
            forall i | 0 <= i < |xs|
              ensures bound <= score(xs[i])
            {
              if i < last {
                assert bound <= score(pre[i]);
              }
            }
          }
        }
      }
      if r.choice.Some? {
        var k :| EarliestMin(xs, score, bound, k) && r.choice.value == xs[k] && r.best == score(xs[k]);
        forall k' | EarliestMin(xs, score, bound, k')
          ensures r.choice == Some(xs[k'])
        {
          EarliestMinUnique(xs, score, bound, k, k');
        }
      } else {
        forall k' | EarliestMin(xs, score, bound, k')
          ensures false
        {
        }
      }
    }
  }

  /** The best score never increases as the fold goes on. */
  lemma {:induction false} ScanBestMonotone<T>(t: Tracker<T>, xs: seq<T>, score: T -> real, i: nat, j: nat)
    requires i <= j <= |xs|
    ensures Scan(t, xs[..j], score).best <= Scan(t, xs[..i], score).best
    decreases j
  {
    if i < j {
      assert xs[..j][..j - 1] == xs[..j - 1];
      ScanBestMonotone(t, xs, score, i, j - 1);
    }
  }
}

=== FILE: optimizer.dfy ===
/** The optimizer's entry point `get_optimal_params` and the step that runs
    the search on every worker and reconciles the results
    (SROMPy/optimize/Optimizer.py, lines 114-205 and 274-317).

    Messaging is modelled by its effect: the coordinator (rank 0) sees every
    worker's kept result in rank order, and whatever it selects is what every
    worker returns. */
module Optimizer {
  import opened Outcomes
  import opened BestSoFar
  import opened Workload
  import opened SearchLoop
  import opened Reconcile

  const SampleCountTypeMessage: string := "Number of test samples must be a positive int."
  const SampleCountValueMessage: string := "Insufficient number of test samples specified."

  /** The Python value passed as `num_test_samples`. `isinstance(True, int)`
      holds in Python, so a `bool` is checked as the integer 0 or 1. */
  datatype Arg = IntArg(value: int) | BoolArg(flag: bool) | OtherArg

  /** The integer `isinstance(·, int)` accepts, if any. */
  function IntValue(a: Arg): Option<int>
  {
    match a
    case IntArg(v) => Some(v)
    case BoolArg(b) => Some(if b then 1 else 0)
    case OtherArg => None
  }

  /** The argument check at the top of `get_optimal_params`: a non-integer
      raises TypeError, an integer that is not positive raises ValueError, and
      anything else is accepted unchanged. */
  function ValidateSampleCount(a: Arg): (r: Result<nat>)
    ensures r == Failure(TypeError(SampleCountTypeMessage)) <==> IntValue(a).None?
    ensures r == Failure(ValueError(SampleCountValueMessage)) <==> IntValue(a).Some? && IntValue(a).value <= 0
    ensures r.Success? <==> IntValue(a).Some? && 0 < IntValue(a).value
    ensures r.Success? ==> r.value == IntValue(a).value
  {
    match IntValue(a)
    case None => Failure(TypeError(SampleCountTypeMessage))
    case Some(v) => if v <= 0 then Failure(ValueError(SampleCountValueMessage)) else Success(v)
  }

  /** What an `Optimizer` object holds that this model reads: the SROM shape
      and the parallel context detected when it was built. */
  datatype Instance = Instance(sromSize: nat, dim: nat, ctx: ParallelContext)

  /** The arguments of `get_optimal_params` (the solver method name only
      affects the solver, which the streams stand for). */
  datatype Request = Request(numTestSamples: Arg, jointOpt: bool, outputInterval: int, verbose: bool)

  /** Everything outside the model: each rank's stream of iteration results
      (rank, then iteration) and the objective function's error terms. */
  datatype Collaborators = Collaborators(streams: nat -> nat -> IterationResult, evaluate: Evaluator)

  function Settings(inst: Instance, req: Request): LoopSettings
  {
    LoopSettings(inst.sromSize, inst.dim, req.jointOpt, req.outputInterval, req.verbose)
  }

  /** The (samples, probabilities) pair a search state holds. */
  function Kept(st: SearchState): Option<Candidate>
  {
    match st.choice
    case Some(r) => Some(r.AsCandidate())
    case None => None
  }

  /** What the search loop of worker `rank` returns. */
  function LocalResult(inst: Instance, total: nat, req: Request, streams: nat -> nat -> IterationResult, rank: nat)
    : Result<Option<Candidate>>
    requires inst.ctx.Valid()
  {
    match LoopOutcome(inst.ctx.cpus, total, Settings(inst, req), streams(rank))
    case Failure(e) => Failure(e)
    case Success(st) => Success(Kept(st))
  }

  /** The package a worker sends to the coordinator. */
  function Package(r: Result<Option<Candidate>>): Option<Candidate>
  {
    if r.Success? then r.value else None
  }

  /** The coordinator's view after the gather: every worker's package, in rank order. */
  function Gathered(inst: Instance, total: nat, req: Request, streams: nat -> nat -> IterationResult)
    : (g: seq<Option<Candidate>>)
    requires inst.ctx.Valid()
    ensures |g| == inst.ctx.cpus
    ensures forall r :: 0 <= r < |g| ==> g[r] == Package(LocalResult(inst, total, req, streams, r))
  {
    seq(inst.ctx.cpus, r requires 0 <= r => Package(LocalResult(inst, total, req, streams, r)))
  }

  /** Whether the search loop raises depends only on the settings, never on
      the rank or its stream, so either every worker raises or none does. */
  lemma FailureIsRankIndependent(inst: Instance, total: nat, req: Request, streams: nat -> nat -> IterationResult, r1: nat, r2: nat)
    requires inst.ctx.Valid()
    ensures LocalResult(inst, total, req, streams, r1).Failure? ==>
              LocalResult(inst, total, req, streams, r2) == LocalResult(inst, total, req, streams, r1)
  {
  }

  /** `__perform_optimization` on the worker `inst.ctx.rank`, as written: the
      local search, then, with several workers, the coordinator's selection
      among the gathered results, broadcast to everyone. */
  function PerformOptimization(inst: Instance, total: nat, req: Request, collab: Collaborators): Result<Option<Candidate>>
    requires inst.ctx.Valid()
  {
    var local := LocalResult(inst, total, req, collab.streams, inst.ctx.rank);
    if local.Failure? || inst.ctx.cpus == 1 then local
    else
      var root := Package(LocalResult(inst, total, req, collab.streams, 0));
      Success(SelectAsWritten(root, Gathered(inst, total, req, collab.streams), collab.evaluate))
  }

  /** `get_optimal_params`: the argument check, then the optimization. */
  function GetOptimalParams(inst: Instance, req: Request, collab: Collaborators): Result<Option<Candidate>>
    requires inst.ctx.Valid()
  {
    match ValidateSampleCount(req.numTestSamples)
    case Failure(e) => Failure(e)
    case Success(total) => PerformOptimization(inst, total, req, collab)
  }

  /** A bad sample count is reported before any search runs: the outcome is
      the validation error whatever the workers' streams and the evaluator. */
  lemma SampleCountRejectedFirst(inst: Instance, req: Request, collab: Collaborators)
    requires inst.ctx.Valid()
    requires ValidateSampleCount(req.numTestSamples).Failure?
    ensures GetOptimalParams(inst, req, collab) == Failure(ValidateSampleCount(req.numTestSamples).error)
    ensures GetOptimalParams(inst, req, collab).error.TypeError? <==> IntValue(req.numTestSamples).None?
    ensures GetOptimalParams(inst, req, collab).error.ValueError? <==> IntValue(req.numTestSamples).Some?
  {
  }

  /** When a valid request raises, and with what. Nothing raises when the
      workers outnumber the samples, not even joint mode; otherwise an empty
      SROM raises ZeroDivisionError, joint mode NotImplementedError, and a zero
      output interval ZeroDivisionError on the second iteration of a verbose
      single worker. */
  lemma FailureConditions(inst: Instance, req: Request, collab: Collaborators)
    requires inst.ctx.Valid()
    requires ValidateSampleCount(req.numTestSamples).Success?
    ensures var total := ValidateSampleCount(req.numTestSamples).value;
      var n := PerWorker(total, inst.ctx.cpus);
      var r := GetOptimalParams(inst, req, collab);
      && (r.Failure? <==>
            0 < n && (inst.sromSize == 0 || req.jointOpt ||
                      (req.verbose && inst.ctx.cpus == 1 && req.outputInterval == 0 && 2 <= n)))
      && (r == Failure(NotImplementedError(ProblemSetup.JointNotImplemented)) <==>
            0 < n && 0 < inst.sromSize && req.jointOpt)
      && (r.Failure? && r.error.ZeroDivisionError? <==>
            0 < n && !(0 < inst.sromSize && req.jointOpt) &&
            (inst.sromSize == 0 || (req.verbose && inst.ctx.cpus == 1 && req.outputInterval == 0 && 2 <= n)))
  {
    var total := ValidateSampleCount(req.numTestSamples).value;
    FailureIsRankIndependent(inst, total, req, collab.streams, inst.ctx.rank, 0);
  }

  /** A single worker returns the pair of the earliest iteration whose
      objective value is the least below 1e6 among its first
      `num_test_samples` iterations, and `None` when no value is below 1e6. */
  lemma SequentialRunKeepsEarliestBest(inst: Instance, req: Request, collab: Collaborators)
    requires inst.ctx == ParallelContext(1, 0)
    requires GetOptimalParams(inst, req, collab).Success?
    ensures var total := ValidateSampleCount(req.numTestSamples).value;
      var stream := collab.streams(0);
      var res := GetOptimalParams(inst, req, collab).value;
      && (res.None? <==> forall i :: 0 <= i < total ==> Sentinel <= stream(i).fun)
      && (res.Some? ==> exists k ::
            && 0 <= k < total
            && res.value == stream(k).AsCandidate()
            && stream(k).fun < Sentinel
            && (forall i :: 0 <= i < total ==> stream(k).fun <= stream(i).fun)
            && (forall i :: 0 <= i < k ==> stream(k).fun < stream(i).fun))
  {
    var total := ValidateSampleCount(req.numTestSamples).value;
    var stream := collab.streams(0);
    assert PerWorker(total, 1) == total;
    LoopKeepsEarliestBest(1, total, Settings(inst, req), stream);
  }

  /** With several workers every rank returns the same result, and, as the
      code is written, that result is the coordinator's own local result: the
      other workers' searches never influence it. */
  lemma ParallelResultIsCoordinatorResult(inst: Instance, req: Request, collab: Collaborators, rank: nat)
    requires inst.ctx.Valid() && 1 < inst.ctx.cpus && rank < inst.ctx.cpus
    requires GetOptimalParams(inst, req, collab).Success?
    ensures var other := inst.(ctx := ParallelContext(inst.ctx.cpus, rank));
      && GetOptimalParams(other, req, collab) == GetOptimalParams(inst, req, collab)
      && GetOptimalParams(inst, req, collab) ==
           LocalResult(inst, ValidateSampleCount(req.numTestSamples).value, req, collab.streams, 0)
  {
    var total := ValidateSampleCount(req.numTestSamples).value;
    var other := inst.(ctx := ParallelContext(inst.ctx.cpus, rank));
    FailureIsRankIndependent(inst, total, req, collab.streams, inst.ctx.rank, 0);
    FailureIsRankIndependent(inst, total, req, collab.streams, 0, rank);
    var g := Gathered(inst, total, req, collab.streams);
    assert g[0] == Package(LocalResult(inst, total, req, collab.streams, 0));
    assert Gathered(other, total, req, collab.streams) == g;
  }

  /** The reconciliation the docstring of `__get_optimal_parallel_results`
      (Optimizer.py:277-278) describes, determining the optimum over all
      workers, done as that requires: each gathered result is scored by its
      own mean error. Every rank returns the earliest worker result
      with the least mean error below 1e6, or the coordinator's local result
      when none is below 1e6. */
  function PerformOptimizationIntended(inst: Instance, total: nat, req: Request, collab: Collaborators)
    : (r: Result<Option<Candidate>>)
    requires inst.ctx.Valid()
    ensures 1 < inst.ctx.cpus && r.Success? ==>
      var g := Gathered(inst, total, req, collab.streams);
      && ((forall i :: 0 <= i < |g| && g[i].Some? ==> Sentinel <= MeanError(collab.evaluate, g[i])) ==>
            r.value == g[0])
      && ((exists i :: 0 <= i < |g| && g[i].Some? && MeanError(collab.evaluate, g[i]) < Sentinel) ==>
            exists k :: BestGathered(g, collab.evaluate, k) && r.value == g[k])
  {
    var local := LocalResult(inst, total, req, collab.streams, inst.ctx.rank);
    if local.Failure? || inst.ctx.cpus == 1 then local
    else
      var g := Gathered(inst, total, req, collab.streams);
      Success(SelectBest(g[0], g, collab.evaluate))
  }
}

=== FILE: outcomes.dfy ===
/** Failure-carrying values shared by the whole model.

    Python signals errors with exceptions and "nothing found" with `None`;
    here the former become a `Result` and the latter an `Option`. */
module Outcomes {

  /** `None` plays the part of Python's `None`. */
  datatype Option<+T> = None | Some(value: T)

  /** The exceptions the optimizer can raise, with the messages it raises them with. */
  datatype PyError =
    | TypeError(message: string)
    | ValueError(message: string)
    | NotImplementedError(message: string)
    | ZeroDivisionError

  /** Either the value a Python call returns or the exception it raises. */
  datatype Result<+T> = Success(value: T) | Failure(error: PyError)
}

=== FILE: problem_setup.dfy ===
/** The constrained problem the optimizer hands to the solver for every drawn
    sample set: an initial guess, one equality constraint and a bound per
    design variable (SROMPy/optimize/Optimizer.py, get_param_bounds,
    get_constraints and get_initial_guess). */
module ProblemSetup {
  import opened Outcomes

  const JointNotImplemented: string := "SROM joint optimization not implemented"

  /** A (lower, upper) pair as handed to the solver. */
  datatype Bound = Bound(lower: real, upper: real)

  /** Every probability lies in [0, 1]. */
  const ProbabilityBound: Bound := Bound(0.0, 1.0)

  /** The equality constraint `1 - sum(probabilities) == 0`. In sequential mode
      the design vector is the probabilities; in joint mode they follow the
      `sromSize * dim` flattened sample coordinates. */
  datatype EqualityConstraint = SequentialConstraint | JointConstraint(sromSize: nat, dim: nat)

  /** Everything the solver receives besides the objective and the method name. */
  datatype Problem = Problem(initialGuess: seq<real>, constraint: EqualityConstraint, bounds: seq<Bound>)

  function Sum(xs: seq<real>): real
  {
    if |xs| == 0 then 0.0 else xs[0] + Sum(xs[1..])
  }

  lemma {:induction false} SumOfConstant(xs: seq<real>, v: real)
    requires forall i :: 0 <= i < |xs| ==> xs[i] == v
    ensures Sum(xs) == |xs| as real * v
  {
    if |xs| > 0 {
      SumOfConstant(xs[1..], v);
    }
  }

  /** Python slicing `x[from:]`: empty once `from` passes the end. */
  function Suffix(x: seq<real>, from: nat): (r: seq<real>)
    ensures from <= |x| ==> r == x[from..]
    ensures |x| < from ==> r == []
  {
    if from <= |x| then x[from..] else []
  }

  /** The value of the constraint function on design vector `x`. */
  function Residual(c: EqualityConstraint, x: seq<real>): real
  {
    match c
    case SequentialConstraint => 1.0 - Sum(x)
    case JointConstraint(size, dim) => 1.0 - Sum(Suffix(x, size * dim))
  }

  /** Sequential bounds: one [0, 1] pair per SROM sample; joint mode raises. */
  function ParamBounds(jointOpt: bool, sromSize: nat): (r: Result<seq<Bound>>)
    ensures r.Failure? <==> jointOpt
    ensures r.Failure? ==> r.error == NotImplementedError(JointNotImplemented)
    ensures r.Success? ==> |r.value| == sromSize
    ensures r.Success? ==> forall i :: 0 <= i < |r.value| ==> r.value[i] == ProbabilityBound
  {
    if !jointOpt then Success(seq(sromSize, _ => ProbabilityBound))
    else Failure(NotImplementedError(JointNotImplemented))
  }

  /** The constraint for the chosen mode; building it never fails. */
  function GetConstraints(jointOpt: bool, sromSize: nat, dim: nat): (c: EqualityConstraint)
    ensures !jointOpt ==> forall x :: Residual(c, x) == 0.0 <==> Sum(x) == 1.0
    ensures jointOpt ==> forall flat, p :: |flat| == sromSize * dim ==>
              (Residual(c, flat + p) == 0.0 <==> Sum(p) == 1.0)
  {
    if !jointOpt then SequentialConstraint
    else
      assert forall flat: seq<real>, p: seq<real> :: |flat| == sromSize * dim ==> Suffix(flat + p, sromSize * dim) == p;
      JointConstraint(sromSize, dim)
  }

  /** The sequential initial guess: equal probability on every sample.
      `1. / float(0)` raises, so an empty SROM fails here. */
  function UniformGuess(sromSize: nat): (r: Result<seq<real>>)
    ensures r.Failure? <==> sromSize == 0
    ensures r.Failure? ==> r.error == ZeroDivisionError
    ensures r.Success? ==> |r.value| == sromSize && Sum(r.value) == 1.0
    ensures r.Success? ==> forall i :: 0 <= i < |r.value| ==> r.value[i] == r.value[0]
  {
    if sromSize == 0 then Failure(ZeroDivisionError)
    else
      var p := 1.0 / sromSize as real;
      var guess := seq(sromSize, _ => p);
      SumOfConstant(guess, p);
      Success(guess)
  }

  /** `x` lies inside `bounds`, entry by entry. */
  predicate WithinBounds(x: seq<real>, bounds: seq<Bound>)
  {
    && |x| == |bounds|
    && forall i :: 0 <= i < |x| ==> bounds[i].lower <= x[i] <= bounds[i].upper
  }

  /** The arguments of one solver call, built in the order the call evaluates
      them: initial guess, constraint, bounds. Both initial-guess paths divide
      by the SROM size first, so an empty SROM raises ZeroDivisionError before
      joint mode reaches its NotImplementedError in the bounds. */
  function SetupProblem(jointOpt: bool, sromSize: nat, dim: nat): (r: Result<Problem>)
    ensures r.Failure? <==> jointOpt || sromSize == 0
    ensures sromSize == 0 ==> r == Failure(ZeroDivisionError)
    ensures sromSize > 0 && jointOpt ==> r == Failure(NotImplementedError(JointNotImplemented))
    ensures r.Success? ==> |r.value.initialGuess| == sromSize
    ensures r.Success? ==> WithinBounds(r.value.initialGuess, r.value.bounds)
    ensures r.Success? ==> Residual(r.value.constraint, r.value.initialGuess) == 0.0
    ensures r.Success? ==> r.value.initialGuess == UniformGuess(sromSize).value
    ensures r.Success? ==> r.value.bounds == ParamBounds(jointOpt, sromSize).value
    ensures r.Success? ==> r.value.constraint == GetConstraints(jointOpt, sromSize, dim)
  {
    if sromSize == 0 then Failure(ZeroDivisionError)
    else
      var guess := UniformGuess(sromSize).value;
      var constraint := GetConstraints(jointOpt, sromSize, dim);
      match ParamBounds(jointOpt, sromSize)
      case Failure(e) => Failure(e)
      case Success(bounds) =>
        assert forall i :: 0 <= i < |guess| ==> guess[i] == 1.0 / sromSize as real;
        Success(Problem(guess, constraint, bounds))
  }
}

=== FILE: reconcile.dfy ===
/** Error breakdown and the coordinator's choice among the workers' results
    (SROMPy/optimize/Optimizer.py, `get_errors` and
    `__get_optimal_parallel_results`). The moment, CDF and correlation errors
    come from the objective function, which is not part of this model: an
    `Evaluator` stands for it. */
module Reconcile {
  import opened Outcomes
  import opened BestSoFar
  import opened SearchLoop

  /** Moment, CDF and correlation error of one (samples, probabilities) pair. */
  datatype ErrorTerms = ErrorTerms(moment: real, cdf: real, correlation: real)

  /** What `get_errors` returns: the three terms and their mean. */
  datatype ErrorReport = ErrorReport(moment: real, cdf: real, correlation: real, mean: real)

  /** The objective function's error terms for a pair; `None` stands for the
      pair `(None, None)` a worker holds when it kept no result. */
  type Evaluator = Option<Candidate> -> ErrorTerms

  function Min3(a: real, b: real, c: real): real
  {
    if a <= b && a <= c then a else if b <= c then b else c
  }

  function Max3(a: real, b: real, c: real): real
  {
    if a >= b && a >= c then a else if b >= c then b else c
  }

  /** The three terms unchanged, and their arithmetic mean. */
  function GetErrors(t: ErrorTerms): (r: ErrorReport)
    ensures r.moment == t.moment && r.cdf == t.cdf && r.correlation == t.correlation
    ensures Min3(t.moment, t.cdf, t.correlation) <= r.mean <= Max3(t.moment, t.cdf, t.correlation)
  {
    ErrorReport(t.moment, t.cdf, t.correlation, (t.moment + t.cdf + t.correlation) / 3.0)
  }

  /** The mean treats the three terms alike: it is unchanged by reordering
      them, equals their common value when they agree, and for non-negative
      terms is zero exactly when all three are. */
  lemma MeanErrorProperties(t: ErrorTerms)
    ensures GetErrors(t).mean == GetErrors(ErrorTerms(t.cdf, t.correlation, t.moment)).mean
    ensures GetErrors(t).mean == GetErrors(ErrorTerms(t.cdf, t.moment, t.correlation)).mean
    ensures t.moment == t.cdf == t.correlation ==> GetErrors(t).mean == t.moment
    ensures 0.0 <= t.moment && 0.0 <= t.cdf && 0.0 <= t.correlation ==>
              (GetErrors(t).mean == 0.0 <==> t.moment == 0.0 && t.cdf == 0.0 && t.correlation == 0.0)
  {
  }

  /** The mean is additive and homogeneous in the terms; with the clauses
      above this makes it the arithmetic mean (the midrange, say, is not
      additive). */
  lemma MeanIsLinear(t: ErrorTerms, u: ErrorTerms, c: real)
    ensures GetErrors(ErrorTerms(t.moment + u.moment, t.cdf + u.cdf, t.correlation + u.correlation)).mean
              == GetErrors(t).mean + GetErrors(u).mean
    ensures GetErrors(ErrorTerms(c * t.moment, c * t.cdf, c * t.correlation)).mean == c * GetErrors(t).mean
  {
  }

  function MeanError(evaluate: Evaluator, e: Option<Candidate>): real
  {
    GetErrors(evaluate(e)).mean
  }

  /** The coordinator's loop as written, from the point where `best` is the
      best mean error so far and `held` the pair it currently holds: each entry
      of `rest` in turn is taken when the mean error of the HELD pair (not of
      the entry) is strictly below `best`, and then `best` becomes that error. */
  function HeldLoop(best: real, held: Option<Candidate>, rest: seq<Option<Candidate>>, evaluate: Evaluator): (r: Option<Candidate>)
    ensures r == held || exists i :: 0 <= i < |rest| && r == rest[i]
    decreases |rest|
  {
    if |rest| == 0 then held
    else
      var m := MeanError(evaluate, held);
      if m < best then HeldLoop(m, rest[0], rest[1..], evaluate)
      else HeldLoop(best, held, rest[1..], evaluate)
  }

  /** Once the held pair's mean error is no longer below the best so far, the
      loop keeps that pair to the end. */
  lemma {:induction false} HeldLoopStays(best: real, held: Option<Candidate>, rest: seq<Option<Candidate>>, evaluate: Evaluator)
    requires best <= MeanError(evaluate, held)
    ensures HeldLoop(best, held, rest, evaluate) == held
    decreases |rest|
  {
    if |rest| > 0 {
      HeldLoopStays(best, held, rest[1..], evaluate);
    }
  }

  /** The coordinator's selection as written: `HeldLoop` from the sentinel,
      holding the coordinator's own pair. Because the first gathered entry is
      the coordinator's own package, the pair held never changes: it is taken
      again at the first step when its mean error is below 1e6, and kept
      otherwise, so no other worker's result is ever chosen. */
  function SelectAsWritten(local: Option<Candidate>, gathered: seq<Option<Candidate>>, evaluate: Evaluator): (r: Option<Candidate>)
    ensures r == local || exists i :: 0 <= i < |gathered| && r == gathered[i]
    ensures Sentinel <= MeanError(evaluate, local) ==> r == local
    ensures 0 < |gathered| && gathered[0] == local ==> r == local
  {
    if Sentinel <= MeanError(evaluate, local) then
      HeldLoopStays(Sentinel, local, gathered, evaluate);
      HeldLoop(Sentinel, local, gathered, evaluate)
    else if 0 < |gathered| && gathered[0] == local then
      HeldLoopStays(MeanError(evaluate, local), local, gathered[1..], evaluate);
      HeldLoop(Sentinel, local, gathered, evaluate)
    else
      HeldLoop(Sentinel, local, gathered, evaluate)
  }

  /** When the first entry is not the pair held, the loop as written does
      move on: if the first entry's mean error is below the local pair's, which
      is itself below 1e6, the first entry is taken at step one, and at step
      two, scoring below the best so far, it is replaced by the second entry,
      whatever that entry's own error. */
  lemma HeldPairDecides(local: Option<Candidate>, b: Option<Candidate>, c: Option<Candidate>, evaluate: Evaluator)
    requires MeanError(evaluate, b) < MeanError(evaluate, local) < Sentinel
    ensures SelectAsWritten(local, [b, c], evaluate) == c
  {
    var g := [b, c];
    var ml, mb := MeanError(evaluate, local), MeanError(evaluate, b);
    assert g[1..] == [c];
    assert HeldLoop(mb, c, [], evaluate) == c;
    assert HeldLoop(ml, b, [c], evaluate) == HeldLoop(mb, c, [], evaluate);
    assert HeldLoop(Sentinel, local, g, evaluate) == HeldLoop(ml, b, [c], evaluate);
  }

  /** Each entry scored by its own pair; an entry without a result scores the
      sentinel, so it can never be chosen. */
  function OwnScore(evaluate: Evaluator): Option<Candidate> -> real
  {
    (e: Option<Candidate>) => if e.Some? then MeanError(evaluate, e) else Sentinel
  }

  /** `gathered[k]` holds a result, its mean error is below 1e6 and no larger
      than that of any other entry holding a result, and every earlier entry
      holding a result has a strictly larger mean error. */
  ghost predicate BestGathered(gathered: seq<Option<Candidate>>, evaluate: Evaluator, k: int)
  {
    && 0 <= k < |gathered|
    && gathered[k].Some?
    && MeanError(evaluate, gathered[k]) < Sentinel
    && (forall i :: 0 <= i < |gathered| && gathered[i].Some? ==>
          MeanError(evaluate, gathered[k]) <= MeanError(evaluate, gathered[i]))
    && (forall i :: 0 <= i < k && gathered[i].Some? ==>
          MeanError(evaluate, gathered[k]) < MeanError(evaluate, gathered[i]))
  }

  /** The intended selection: the earliest gathered result with the smallest
      mean error of its own, provided it is below 1e6; entries without a
      result are never chosen; the local pair is kept when nothing qualifies. */
  function SelectBest(local: Option<Candidate>, gathered: seq<Option<Candidate>>, evaluate: Evaluator): (r: Option<Candidate>)
    ensures (forall i :: 0 <= i < |gathered| && gathered[i].Some? ==> Sentinel <= MeanError(evaluate, gathered[i])) ==>
              r == local
    ensures (exists i :: 0 <= i < |gathered| && gathered[i].Some? && MeanError(evaluate, gathered[i]) < Sentinel) ==>
              exists k :: BestGathered(gathered, evaluate, k) && r == gathered[k]
  {
    var score := OwnScore(evaluate);
    ScanSelectsEarliestMin(Sentinel, gathered, score);
    assert forall k :: EarliestMin(gathered, score, Sentinel, k) ==> BestGathered(gathered, evaluate, k);
    match Scan(Start(Sentinel), gathered, score).choice
    case Some(e) => e
    case None => local
  }

  /** With two workers whose second result has the strictly smaller mean
      error, the selection as written returns the coordinator's own result
      while the intended selection returns the better one. */
  lemma AsWrittenMissesBetterWorker(a: Candidate, b: Candidate, evaluate: Evaluator)
    requires MeanError(evaluate, Some(b)) < MeanError(evaluate, Some(a)) < Sentinel
    ensures SelectAsWritten(Some(a), [Some(a), Some(b)], evaluate) == Some(a)
    ensures SelectBest(Some(a), [Some(a), Some(b)], evaluate) == Some(b)
  {
    var g := [Some(a), Some(b)];
    assert g[1].Some? && MeanError(evaluate, g[1]) < Sentinel;
    var k :| BestGathered(g, evaluate, k) && SelectBest(Some(a), g, evaluate) == g[k];
    assert k != 0 by {
      assert !BestGathered(g, evaluate, 0) by {
        assert g[1].Some? && MeanError(evaluate, g[1]) < MeanError(evaluate, g[0]);
      }
    }
  }
}

=== FILE: search_loop.dfy ===
/** The sequential SROM search of one worker (SROMPy/optimize/Optimizer.py,
    `__run_optimization_loop`, lines 207-272): draw a sample set, solve for
    its probabilities, keep the best result, and report progress.

    Drawing samples and running the solver are not modelled: a worker's
    stream of iteration results is given as an oracle `nat -> IterationResult`
    (iteration index to result). The random generator is seeded with the
    worker's rank, so each rank has its own stream. */
module SearchLoop {
  import opened Outcomes
  import opened BestSoFar
  import ProblemSetup
  import Workload

  /** A (samples, probabilities) pair; `samples` is a size-by-dim matrix. */
  datatype Candidate = Candidate(samples: seq<seq<real>>, probabilities: seq<real>)

  /** One iteration: the drawn samples and the solver's final `x` and `fun`. */
  datatype IterationResult = IterationResult(samples: seq<seq<real>>, x: seq<real>, fun: real)
  {
    function AsCandidate(): Candidate
    {
      Candidate(samples, x)
    }
  }

  /** The score the search loop compares: the solver's objective value. */
  function Objective(r: IterationResult): real
  {
    r.fun
  }

  type SearchState = Tracker<IterationResult>

  /** The arguments of `__run_optimization_loop` besides the sample count,
      together with the SROM shape the optimizer was built with. */
  datatype LoopSettings = LoopSettings(
    sromSize: nat, dim: nat, jointOpt: bool, outputInterval: int, verbose: bool)

  /** One progress report: the 1-based iteration number, that iteration's
      objective value and the best value so far. */
  datatype Progress = Progress(iteration: nat, objective: real, optimal: real)

  /** The first `n` results of a worker's stream. */
  function Trace(oracle: nat -> IterationResult, n: nat): (t: seq<IterationResult>)
    ensures |t| == n
    ensures forall i :: 0 <= i < n ==> t[i] == oracle(i)
  {
    seq(n, i requires 0 <= i => oracle(i))
  }

  /** Whether iteration `i` (0-based) reports progress. The test
      `(i + 1) % output_interval == 0` is only reached for `i > 0`, and raises
      when the interval is zero. (For a non-zero interval, Python's floored and
      Dafny's Euclidean remainder are zero for the same operands.) */
  function ProgressDue(verbose: bool, cpus: nat, outputInterval: int, i: nat): (r: Result<bool>)
    ensures r.Failure? <==> verbose && cpus == 1 && i != 0 && outputInterval == 0
    ensures r.Failure? ==> r.error == ZeroDivisionError
    ensures r == Success(true) <==>
              verbose && cpus == 1 && (i == 0 || (outputInterval != 0 && (i + 1) % outputInterval == 0))
  {
    if !(verbose && cpus == 1) then Success(false)
    else if i == 0 then Success(true)
    else if outputInterval == 0 then Failure(ZeroDivisionError)
    else Success((i + 1) % outputInterval == 0)
  }

  /** Number of progress reports in the first `n` iterations. */
  function DueCount(verbose: bool, cpus: nat, outputInterval: int, n: nat): nat
  {
    if n == 0 then 0
    else DueCount(verbose, cpus, outputInterval, n - 1)
         + (if ProgressDue(verbose, cpus, outputInterval, n - 1) == Success(true) then 1 else 0)
  }

  lemma SmallMultiple(k: int, m: int)
    requires 0 < m && -m < k * m < m
    ensures k == 0
  {
  }

  lemma DivModUnique(a: int, m: int, q: int, r: int)
    requires 0 < m && a == q * m + r && 0 <= r < m
    ensures a / m == q && a % m == r
  {
    var q', r' := a / m, a % m;
    assert a == q' * m + r' && 0 <= r' < m;
    assert (q - q') * m == r' - r;
    SmallMultiple(q - q', m);
  }

  lemma DivStep(n: nat, m: nat)
    requires 0 < m
    ensures (n + 1) / m == n / m + (if (n + 1) % m == 0 then 1 else 0)
  {
    var q, r := n / m, n % m;
    DivModUnique(n, m, q, r);
    if r == m - 1 {
      DivModUnique(n + 1, m, q + 1, 0);
    } else {
      DivModUnique(n + 1, m, q, r + 1);
    }
  }

  /** With a positive interval `m`, a verbose single worker reports once per
      completed block of `m` iterations, plus the first iteration when `m > 1`;
      otherwise it never reports. */
  lemma {:induction false} ProgressCount(verbose: bool, cpus: nat, m: int, n: nat)
    requires 0 < m
    ensures verbose && cpus == 1 ==>
              DueCount(verbose, cpus, m, n) == n / m + (if 0 < n && 1 < m then 1 else 0)
    ensures !(verbose && cpus == 1) ==> DueCount(verbose, cpus, m, n) == 0
  {
    if n > 0 {
      ProgressCount(verbose, cpus, m, n - 1);
      if verbose && cpus == 1 {
        if n - 1 > 0 {
          DivStep(n - 1, m);
        } else if m == 1 {
          DivModUnique(1, m, 1, 0);
        } else {
          DivModUnique(1, m, 0, 1);
        }
      }
    }
  }

  /** What the loop ends with: the best-so-far fold of the worker's first
      `total // cpus` results, or the exception the loop raises. Setting up the
      solver call raises on the first iteration, and a zero output interval
      raises on the second iteration of a verbose single worker. */
  function LoopOutcome(cpus: nat, total: nat, s: LoopSettings, oracle: nat -> IterationResult): (r: Result<SearchState>)
    requires 0 < cpus
    ensures var n := Workload.PerWorker(total, cpus);
      r.Failure? <==>
        0 < n && (s.sromSize == 0 || s.jointOpt || (s.verbose && cpus == 1 && s.outputInterval == 0 && 2 <= n))
    ensures r.Success? && Workload.PerWorker(total, cpus) == 0 ==> r.value.choice.None?
  {
    var n := Workload.PerWorker(total, cpus);
    if n == 0 then Success(Start(Sentinel))
    else match ProblemSetup.SetupProblem(s.jointOpt, s.sromSize, s.dim)
      case Failure(e) => Failure(e)
      case Success(_) =>
        if s.verbose && cpus == 1 && s.outputInterval == 0 && 2 <= n then Failure(ZeroDivisionError)
        else Success(Scan(Start(Sentinel), Trace(oracle, n), Objective))
  }

  lemma TraceStep(oracle: nat -> IterationResult, i: nat)
    ensures Scan(Start(Sentinel), Trace(oracle, i + 1), Objective)
         == Offer(Scan(Start(Sentinel), Trace(oracle, i), Objective), oracle(i).fun, oracle(i))
  {
    assert Trace(oracle, i + 1)[..i] == Trace(oracle, i);
  }

  /** The best objective value after the first `n` iterations. */
  function BestAfter(oracle: nat -> IterationResult, n: nat): real
  {
    Scan(Start(Sentinel), Trace(oracle, n), Objective).best
  }

  /** `p` is the report iteration `p.iteration` makes: that iteration is due,
      and `p` carries its objective value and the best value after it. */
  ghost predicate ReportOf(p: Progress, s: LoopSettings, cpus: nat, oracle: nat -> IterationResult)
  {
    && 1 <= p.iteration
    && ProgressDue(s.verbose, cpus, s.outputInterval, p.iteration - 1) == Success(true)
    && p.objective == oracle(p.iteration - 1).fun
    && p.optimal == BestAfter(oracle, p.iteration)
  }

  /** Every entry of `reports` is the report of an iteration among the first `n`. */
  ghost predicate ReportsSound(reports: seq<Progress>, s: LoopSettings, cpus: nat, oracle: nat -> IterationResult, n: nat)
  {
    forall k :: 0 <= k < |reports| ==> ReportOf(reports[k], s, cpus, oracle) && reports[k].iteration <= n
  }

  /** The entries of `reports` are in strictly increasing iteration order. */
  ghost predicate ReportsOrdered(reports: seq<Progress>)
  {
    forall k, l :: 0 <= k < l < |reports| ==> reports[k].iteration < reports[l].iteration
  }

  /** Every due iteration among the first `n` has an entry in `reports`. */
  ghost predicate ReportsComplete(reports: seq<Progress>, s: LoopSettings, cpus: nat, n: nat)
  {
    forall j ::
      (0 <= j < n && ProgressDue(s.verbose, cpus, s.outputInterval, j) == Success(true)) ==>
      exists k :: 0 <= k < |reports| && reports[k].iteration == j + 1
  }

  /** `reports` is the log of the first `n` iterations: each entry is the
      report of its iteration, entries are in iteration order, and every due
      iteration has an entry. */
  ghost predicate ReportsUpTo(reports: seq<Progress>, s: LoopSettings, cpus: nat, oracle: nat -> IterationResult, n: nat)
  {
    ReportsSound(reports, s, cpus, oracle, n) && ReportsOrdered(reports) && ReportsComplete(reports, s, cpus, n)
  }

  lemma AppendSound(reports: seq<Progress>, s: LoopSettings, cpus: nat, oracle: nat -> IterationResult, i: nat, p: Progress)
    requires ReportsSound(reports, s, cpus, oracle, i)
    requires ReportOf(p, s, cpus, oracle) && p.iteration == i + 1
    ensures ReportsSound(reports + [p], s, cpus, oracle, i + 1)
  {
    var reports' := reports + [p];
    forall k | 0 <= k < |reports'|
      ensures ReportOf(reports'[k], s, cpus, oracle) && reports'[k].iteration <= i + 1
    {
      if k < |reports| {
        assert reports'[k] == reports[k];
      }
    }
  }

  lemma AppendOrdered(reports: seq<Progress>, i: nat, p: Progress)
    requires ReportsOrdered(reports)
    requires forall k :: 0 <= k < |reports| ==> reports[k].iteration <= i
    requires p.iteration == i + 1
    ensures ReportsOrdered(reports + [p])
  {
  }

  lemma AppendComplete(reports: seq<Progress>, s: LoopSettings, cpus: nat, i: nat, p: Progress)
    requires ReportsComplete(reports, s, cpus, i)
    requires p.iteration == i + 1
    ensures ReportsComplete(reports + [p], s, cpus, i + 1)
  {
    var reports' := reports + [p];
    forall j | 0 <= j < i + 1 && ProgressDue(s.verbose, cpus, s.outputInterval, j) == Success(true)
      ensures exists k :: 0 <= k < |reports'| && reports'[k].iteration == j + 1
    {
      if j == i {
        assert reports'[|reports|].iteration == j + 1;
      } else {
        var k :| 0 <= k < |reports| && reports[k].iteration == j + 1;
        assert reports'[k].iteration == j + 1;
      }
    }
  }

  lemma SkipComplete(reports: seq<Progress>, s: LoopSettings, cpus: nat, i: nat)
    requires ReportsComplete(reports, s, cpus, i)
    requires ProgressDue(s.verbose, cpus, s.outputInterval, i) != Success(true)
    ensures ReportsComplete(reports, s, cpus, i + 1)
  {
  }

  /** Extending the log by one iteration. */
  lemma ReportsStep(reports: seq<Progress>, s: LoopSettings, cpus: nat, oracle: nat -> IterationResult, i: nat, due: bool)
    requires ReportsUpTo(reports, s, cpus, oracle, i)
    requires ProgressDue(s.verbose, cpus, s.outputInterval, i) == Success(due)
    ensures ReportsUpTo(if due then reports + [Progress(i + 1, oracle(i).fun, BestAfter(oracle, i + 1))] else reports,
                        s, cpus, oracle, i + 1)
  {
    if due {
      var p := Progress(i + 1, oracle(i).fun, BestAfter(oracle, i + 1));
      assert ReportOf(p, s, cpus, oracle);
      AppendSound(reports, s, cpus, oracle, i, p);
      AppendOrdered(reports, i, p);
      AppendComplete(reports, s, cpus, i, p);
    } else {
      SkipComplete(reports, s, cpus, i);
    }
  }

  /** The `n` iterations of a worker whose problem was set up: the fold of
      the first `n` results, unless a verbose single worker with a zero output
      interval reaches its second iteration; the reports made on the way. */
  method Iterate(cpus: nat, s: LoopSettings, oracle: nat -> IterationResult, n: nat)
    returns (outcome: Result<SearchState>, reports: seq<Progress>)
    requires 0 < cpus
    ensures outcome ==
      if s.verbose && cpus == 1 && s.outputInterval == 0 && 2 <= n then Failure(ZeroDivisionError)
      else Success(Scan(Start(Sentinel), Trace(oracle, n), Objective))
    ensures outcome.Success? ==> ReportsUpTo(reports, s, cpus, oracle, n)
    ensures outcome.Failure? ==> ReportsUpTo(reports, s, cpus, oracle, 1)
  {
    reports := [];
    var state: SearchState := Start(Sentinel);
    var i: nat := 0;
    assert ReportsUpTo(reports, s, cpus, oracle, 0);
    while i < n
      invariant i <= n
      invariant state == Scan(Start(Sentinel), Trace(oracle, i), Objective)
      invariant !(s.verbose && cpus == 1 && s.outputInterval == 0 && 2 <= i)
      invariant ReportsUpTo(reports, s, cpus, oracle, i)
    {
      var r := oracle(i);
      TraceStep(oracle, i);
      state := Offer(state, r.fun, r);
      var due := ProgressDue(s.verbose, cpus, s.outputInterval, i);
      if due.Failure? {
        return Failure(due.error), reports;
      }
      ReportsStep(reports, s, cpus, oracle, i, due.value);
      assert state.best == BestAfter(oracle, i + 1);
      if due.value {
        reports := reports + [Progress(i + 1, r.fun, state.best)];
      }
      i := i + 1;
    }
    outcome := Success(state);
  }

  /** The search loop. It agrees with `LoopOutcome`, and when it completes its
      reports are exactly the due iterations, in order, each carrying that
      iteration's objective and the best-so-far value. */
  method RunOptimizationLoop(cpus: nat, total: nat, s: LoopSettings, oracle: nat -> IterationResult)
    returns (outcome: Result<SearchState>, reports: seq<Progress>)
    requires 0 < cpus
    ensures outcome == LoopOutcome(cpus, total, s, oracle)
    ensures outcome.Success? ==> ReportsUpTo(reports, s, cpus, oracle, Workload.PerWorker(total, cpus))
  {
    var n := Workload.PerWorker(total, cpus);
    reports := [];
    if n == 0 {
      return Success(Start(Sentinel)), reports;
    }
    var setup := ProblemSetup.SetupProblem(s.jointOpt, s.sromSize, s.dim);
    if setup.Failure? {
      return Failure(setup.error), reports;
    }
    outcome, reports := Iterate(cpus, s, oracle, n);
  }

  /** A completed loop keeps the earliest iteration whose objective value is
      the minimum of the 1e6 sentinel and all objective values, and keeps
      nothing when no value beats the sentinel (in particular when the worker
      runs no iteration at all). */
  lemma LoopKeepsEarliestBest(cpus: nat, total: nat, s: LoopSettings, oracle: nat -> IterationResult)
    requires 0 < cpus
    requires LoopOutcome(cpus, total, s, oracle).Success?
    ensures var n := Workload.PerWorker(total, cpus);
      var st := LoopOutcome(cpus, total, s, oracle).value;
      && (n == 0 ==> st.choice.None?)
      && st.best <= Sentinel
      && (forall i :: 0 <= i < n ==> st.best <= oracle(i).fun)
      && (st.choice.None? <==> forall i :: 0 <= i < n ==> Sentinel <= oracle(i).fun)
      && (st.choice.None? ==> st.best == Sentinel)
      && (st.choice.Some? ==> exists k ::
            && 0 <= k < n
            && st.choice.value == oracle(k)
            && st.best == oracle(k).fun < Sentinel
            && (forall i :: 0 <= i < k ==> oracle(k).fun < oracle(i).fun))
  {
    var n := Workload.PerWorker(total, cpus);
    var trace := Trace(oracle, n);
    ScanSelectsEarliestMin(Sentinel, trace, Objective);
    var st := LoopOutcome(cpus, total, s, oracle).value;
    if n > 0 {
      assert st == Scan(Start(Sentinel), trace, Objective);
      if st.choice.Some? {
        var k :| EarliestMin(trace, Objective, Sentinel, k) && st.choice.value == trace[k] && st.best == Objective(trace[k]);
        assert forall i :: 0 <= i < k ==> Objective(trace[k]) < Objective(trace[i]);
      }
    }
  }
}

=== FILE: workload.dfy ===
/** How the requested number of test samples is divided among workers, and
    the notices the optimizer prints about it (SROMPy/optimize/Optimizer.py,
    lines 235 and 319-338). */
module Workload {

  /** Worker count and this worker's rank, read once when the optimizer is
      built; `ParallelContext(1, 0)` when no message-passing layer exists. */
  datatype ParallelContext = ParallelContext(cpus: nat, rank: nat)
  {
    predicate Valid()
    {
      0 < cpus && rank < cpus
    }
  }

  /** Iterations each worker runs: `total // cpus`. */
  function PerWorker(total: nat, cpus: nat): (n: nat)
    requires 0 < cpus
    ensures n * cpus <= total < (n + 1) * cpus
  {
    total / cpus
  }

  /** The split is exact arithmetic: the workers together run `total` minus a
      remainder smaller than the worker count, and nobody runs anything when
      the workers outnumber the samples. */
  lemma PerWorkerPartition(total: nat, cpus: nat)
    requires 0 < cpus
    ensures total - cpus * PerWorker(total, cpus) == total % cpus
    ensures 0 <= total - cpus * PerWorker(total, cpus) < cpus
    ensures PerWorker(total, cpus) == 0 <==> total < cpus
  {
    assert total == cpus * (total / cpus) + total % cpus;
  }

  lemma MulCancelLess(a: nat, b: nat, c: nat)
    requires a * c < b * c
    ensures a < b
  {
  }

  /** Adding a worker never raises any worker's share. */
  lemma PerWorkerAntitone(total: nat, cpus: nat)
    requires 0 < cpus
    ensures PerWorker(total, cpus + 1) <= PerWorker(total, cpus)
  {
    var n := PerWorker(total, cpus);
    var m := PerWorker(total, cpus + 1);
    assert m * cpus <= m * (cpus + 1) <= total < (n + 1) * cpus;
    MulCancelLess(m, n + 1, cpus);
  }

  datatype Notice =
    | SequentialBanner
    | ParallelBanner(cpus: nat)
    | UnevenSplitWarning(perCore: nat, total: nat)

  predicate HasWarning(ns: seq<Notice>)
  {
    exists k :: 0 <= k < |ns| && ns[k].UnevenSplitWarning?
  }

  /** What `show_parallelization_information` prints, in order. */
  function ParallelizationNotices(ctx: ParallelContext, total: nat): (ns: seq<Notice>)
    requires ctx.Valid()
    ensures SequentialBanner in ns <==> ctx.cpus == 1
    ensures ParallelBanner(ctx.cpus) in ns <==> 1 < ctx.cpus && ctx.rank == 0
    ensures forall k :: 0 <= k < |ns| && ns[k].UnevenSplitWarning? ==>
              ns[k] == UnevenSplitWarning(PerWorker(total, ctx.cpus), total)
    ensures forall k :: 0 <= k < |ns| && ns[k].ParallelBanner? ==> ns[k] == ParallelBanner(ctx.cpus)
    ensures ctx.rank != 0 ==> ns == []
    ensures |ns| <= 2
    ensures forall k :: 0 <= k < |ns| && ns[k].UnevenSplitWarning? ==> k == |ns| - 1
    ensures forall k :: 0 <= k < |ns| && !ns[k].UnevenSplitWarning? ==> k == 0
  {
    var banner :=
      if ctx.cpus == 1 then [SequentialBanner]
      else if ctx.rank == 0 then [ParallelBanner(ctx.cpus)]
      else [];
    var warning :=
      if ctx.rank == 0 && total % ctx.cpus != 0 then [UnevenSplitWarning(total / ctx.cpus, total)]
      else [];
    banner + warning
  }

  /** The coordinator warns exactly when the workers together run fewer
      iterations than requested, and the warning's per-core figure is what each
      worker really runs. Other ranks never warn. */
  lemma WarningIffSamplesDropped(ctx: ParallelContext, total: nat)
    requires ctx.Valid()
    ensures HasWarning(ParallelizationNotices(ctx, total)) <==>
              ctx.rank == 0 && ctx.cpus * PerWorker(total, ctx.cpus) < total
    ensures HasWarning(ParallelizationNotices(ctx, total)) ==>
              UnevenSplitWarning(PerWorker(total, ctx.cpus), total) in ParallelizationNotices(ctx, total)
  {
    var ns := ParallelizationNotices(ctx, total);
    PerWorkerPartition(total, ctx.cpus);
    if ctx.rank == 0 && total % ctx.cpus != 0 {
      assert ns[|ns| - 1].UnevenSplitWarning?;
    }
  }
}
